=== FILE: README.md ===
# mini-servo layout adapters, modelled in Dafny

mini-servo drives servo's layout engine over a blitz_dom document. Servo's
layout reads the document through a set of handle types. mini-servo supplies
them in `crates/mini-servo/src/layout/`:

- `BlitzLayoutNode`: classifies a node for layout (`type_id`,
  `is_text_input`, `is_connected`). It also owns the node's layout-data cell:
  lazy initialisation, the box slots handed out to box-tree construction,
  clearing them, reading fragments back, and taking the restyle damage.
- `SafeBlitzLayoutNode` and `SafeBlitzLayoutElement`: the thread-safe handles.
  Each adds an optional pseudo-element to a node or element, and the rules
  about that field are the heart of the wrappers.
- `SafeBlitzChildrenIterator` and `BlitzLayoutNodeIterator`: wrap every node
  a blitz_dom traverser yields.

The model is functional. Nodes and handles are immutable datatypes, and each
operation that updates a node returns the updated node.

| file | module | source |
|---|---|---|
| options.dfy | `Options` | Rust's `Option` |
| seqs.dfy | `Seqs` | the first-match search behind `Iterator::find` over a list |
| dom.dfy | `Dom` | the blitz_dom node data the adapters read, and stand-ins for blitz_dom accessors |
| classify.dfy | `Classify` | the element-type table of `layout/node.rs` |
| handles.dfy | `Handles` | the four handle structs |
| layout_node.dfy | `LayoutNodeOps` | `type_id`, `to_threadsafe`, `is_text_input`, `is_connected` of `layout/node.rs` |
| layout_slots.dfy | `LayoutSlots` | layout-data and damage operations of `layout/node.rs` |
| safe_node.dfy | `ThreadSafeNode` | `layout/safe_node.rs` |
| safe_element.dfy | `ThreadSafeElement` | `layout/safe_element.rs` |
| child_iter.dfy | `ChildIter` | `layout/iter.rs` |

blitz_dom and servo's layout crate are not part of this model. Where the
adapters call into them, the model either takes the callee as a parameter or
uses a small stand-in. Each stand-in is documented where it is defined. The
assumptions are:

- `Node::is_element` holds for `NodeData::Element` only.
- `Node::is_text_node` holds for `NodeData::Text` only.
- blitz_dom's `NodeFlags` has exactly three bits: `IS_INLINE_ROOT`,
  `IS_TABLE_ROOT` and `IS_IN_DOCUMENT` (`Dom.NodeFlag`). The converse
  ensures of `LayoutNodeOps.IsConnected` (in the document and neither root
  flag implies connected) depends on this being the full set.
- `TElement::shadow_root` is read from a per-node field, `shadowRoot`;
  `ThreadSafeElement.IsShadowHost` tests that field.
- `Node::element_data` is present for elements and anonymous blocks.
- `TNode::as_element` succeeds exactly for `NodeData::Element`.
- `TElement::is_html_element` holds when the element data is in the HTML
  namespace.
- `Node::attr(name)` returns the first attribute with that local name, in any
  namespace.
- servo's `InnerDOMLayoutData::for_pseudo(None)` is the element's own slot.
  `for_pseudo(Some(p))` is the first pseudo slot recorded for `p`.
- `RestyleDamage::reconstruct()` is the full damage set.
- servo's `BoxSlot::set` stores a box in the cell the slot shares with the
  layout data (`LayoutSlots.FillSlot`).

## Model

| member | source | states |
|---|---|---|
| Classify.ElementTypeOfName | crates/mini-servo/src/layout/node.rs:151-183 | names outside the HTML and SVG namespaces are plain `Element`; the two SVG types come only from SVG names and every other specific type only from HTML names |
| Classify.ElementTypeOfNameMatchesNamesOf | crates/mini-servo/src/layout/node.rs:151-183 | a qualified name maps to a specific layout element type exactly when it appears in that type's name list (both directions) |
| Classify.ClassifiedIsListed | crates/mini-servo/src/layout/node.rs:151-183 | any name that maps to a specific type is listed for that type |
| Classify.ListedIsClassified | crates/mini-servo/src/layout/node.rs:151-183 | every listed name maps to the type it is listed for |
| Classify.PlainElementIffUnlisted | crates/mini-servo/src/layout/node.rs:151-183 | a name falls back to plain `Element` exactly when no type lists it |
| Classify.RepresentativeRoundTrip | crates/mini-servo/src/layout/node.rs:151-183 | the table is onto: every `LayoutElementType` is the classification of some name |
| Classify.SvgClassification | crates/mini-servo/src/layout/node.rs:153-157 | in the SVG namespace only `image` (SVGImage) and `svg` (SVGSVG) get their own type; every other SVG name is `Element` |
| Classify.HtmlAliases | crates/mini-servo/src/layout/node.rs:164-165 | HTML `img` and `image` are both images, `audio` and `video` are both media, and SVG `image` is a different type from HTML `image` |
| Classify.DocumentStructureTags | crates/mini-servo/src/layout/node.rs:159-163 | `body`, `br`, `canvas`, `html` and `iframe` in HTML get their own types |
| Classify.InputAndOptionTags | crates/mini-servo/src/layout/node.rs:166-168 | `input`, `optgroup` and `option` in HTML get their own types |
| Classify.ObjectAndTextBlockTags | crates/mini-servo/src/layout/node.rs:169-171 | `object`, `p` and `pre` in HTML get their own types |
| Classify.SelectAndTextAreaTags | crates/mini-servo/src/layout/node.rs:172-178 | `select` and `textarea` in HTML get their own types |
| Classify.TableTags | crates/mini-servo/src/layout/node.rs:173-175 | `td`, `col` and `table` in HTML get table types |
| Classify.TableRowTags | crates/mini-servo/src/layout/node.rs:176-177 | `tr` and `thead` in HTML get table types |
| Classify.UnlistedTagsArePlain | crates/mini-servo/src/layout/node.rs:179 | unlisted HTML tags such as `th`, `tbody` and `h1` get plain `Element` |
| Classify.OtherNamespacesArePlain | crates/mini-servo/src/layout/node.rs:181 | every namespace other than HTML and SVG gives plain `Element` |
| LayoutNodeOps.TypeId | crates/mini-servo/src/layout/node.rs:195-209 | Text is the only node kind typed `Text`; element data is classified by the table; the document is typed as an HTML `html` element; comments are excluded by the caller (`unreachable!`) |
| LayoutNodeOps.TypeIdIgnoresNodeKind | crates/mini-servo/src/layout/node.rs:196-205 | an element and an anonymous block with the same data get the same type, and the document gets the type an HTML `html` element gets |
| LayoutNodeOps.ToThreadsafe | crates/mini-servo/src/layout/node.rs:188-193 | the thread-safe handle wraps the same node with no pseudo-element |
| LayoutNodeOps.IsTextInputIff | crates/mini-servo/src/layout/node.rs:249-258 | a node is a text input iff it is an `Element` named `textarea`, or named `input` with a first `type` attribute that is missing or not exactly "color" |
| LayoutNodeOps.IsTextInputIgnoresNamespace | crates/mini-servo/src/layout/node.rs:249-258 | the element's namespace never changes text-input status |
| LayoutNodeOps.ColorInputIsNotTextInput | crates/mini-servo/src/layout/node.rs:253 | an `input` whose first `type` attribute is "color" is not a text input; any other first value makes it one |
| LayoutNodeOps.TextInputIsInputOrTextArea | crates/mini-servo/src/layout/node.rs:249-258 | an HTML text input is classified as an input or a textarea element |
| Dom.AttrByLocal | crates/mini-servo/src/layout/node.rs:253 | the attribute lookup used for `type` (blitz_dom's `attr`) finds a value iff some attribute has that local name, and the value found is that of the first such attribute |
| LayoutNodeOps.IsTextInput | crates/mini-servo/src/layout/node.rs:249-258 | only `Element` nodes named `textarea` or `input` are text inputs, and an `input` one never has "color" as its first `type` value |
| LayoutNodeOps.IsConnected | crates/mini-servo/src/layout/node.rs:242-245 | as written: connected exactly when the node is in the document and is neither an inline root nor a table root (both directions) |
| LayoutNodeOps.IsConnectedMissesFlaggedNodes | crates/mini-servo/src/layout/node.rs:242-245 | the code as written reports an in-document inline root as not connected, although the intended test accepts it |
| LayoutNodeOps.IsConnectedIntendedProperties | crates/mini-servo/src/layout/node.rs:242-245 | the intended test accepts everything the written one does, and no flag except in-document changes its answer |
| LayoutSlots.InitializeLayoutData | crates/mini-servo/src/layout/node.rs:222-229 | the layout-data cell holds a fresh empty record and nothing else changes |
| LayoutSlots.InitializeStyleAndLayoutData | crates/mini-servo/src/layout/node.rs:211-220 | both cells are reset to their default (empty) and nothing else changes |
| LayoutSlots.LayoutDataMut | crates/mini-servo/src/layout/node.rs:300-313 | afterwards layout data is always present; existing data is kept as it is; missing data becomes the empty record; no other field changes |
| LayoutSlots.LayoutDataMutIdempotent | crates/mini-servo/src/layout/node.rs:303-306 | lazy initialisation happens at most once |
| LayoutSlots.ElementBoxSlot | crates/mini-servo/src/layout/node.rs:327-329 | afterwards layout data is present and the slot handed out holds the element's previous own box (empty when there was no layout data); a node with layout data is returned unchanged, and no other field changes |
| LayoutSlots.ElementBoxSlotAnswersOwnLookup | crates/mini-servo/src/layout/node.rs:327-329 | a box stored through the slot handed out becomes the element's own fragments while every pseudo lookup keeps its answer, so the slot is the own `self_box` one; handing it out changes no lookup |
| LayoutSlots.PseudoElementBoxSlotAnswersFirstLookup | crates/mini-servo/src/layout/node.rs:331-342 | a box stored through a new pseudo slot answers that pseudo's lookup when it had no slot before, an earlier slot keeps answering otherwise, and the own lookup is unchanged |
| LayoutSlots.PseudoElementBoxSlot | crates/mini-servo/src/layout/node.rs:331-342 | exactly one entry (the given pseudo, an empty slot) is appended, the own box is kept, and the slot handed out is that new, empty entry |
| LayoutSlots.PseudoBoxSlotPreservesLookups | crates/mini-servo/src/layout/node.rs:331-342 | handing out a pseudo slot changes no fragment lookup: other pseudos and the own box keep theirs, and an earlier slot for the same pseudo still answers (first match wins) |
| LayoutSlots.UnsetAllBoxes | crates/mini-servo/src/layout/node.rs:344-348 | the own box is set to None, the pseudo boxes are emptied, and no other field changes |
| LayoutSlots.UnsetAllPseudoBoxes | crates/mini-servo/src/layout/node.rs:350-352 | only the pseudo boxes are emptied; the own box is kept |
| LayoutSlots.UnsetAllBoxesClearsFragments | crates/mini-servo/src/layout/node.rs:344-348 | after clearing all boxes every fragment lookup is empty |
| LayoutSlots.UnsetAllPseudoBoxesKeepsOwnFragments | crates/mini-servo/src/layout/node.rs:350-352 | after clearing pseudo boxes the element keeps its own fragments and every pseudo lookup is empty |
| LayoutSlots.ClearingIsIdempotent | crates/mini-servo/src/layout/node.rs:344-352 | both clears are idempotent, and clearing pseudo boxes after a full clear does nothing |
| LayoutSlots.ForPseudo | crates/mini-servo/src/layout/node.rs:361 | no pseudo gives the own box; a pseudo gives none exactly when no entry records it, and otherwise the box of the first entry that does |
| Seqs.FirstIndex | crates/mini-servo/src/layout/node.rs:361 | the position found holds a match and no earlier position does; none exactly when nothing matches |
| Seqs.FirstIndexAfterAppend | crates/mini-servo/src/layout/node.rs:337-340 | appending an element never moves an existing first match; only a search that failed can find the new element |
| LayoutSlots.FragmentsForPseudo | crates/mini-servo/src/layout/node.rs:354-368 | the result is empty when there is no layout data or no entry for the pseudo; otherwise the fragments of the box in the slot that answers for the pseudo (the own slot for none, else the first entry), and empty when that slot is empty |
| LayoutSlots.TakeRestyleDamage | crates/mini-servo/src/layout/node.rs:399-404 | returns the stored damage and resets it to none; without style data, returns full reconstruction and leaves the node unchanged |
| LayoutSlots.TakeRestyleDamageTwice | crates/mini-servo/src/layout/node.rs:399-404 | a second take reports no damage, or reconstruction again when there is no style data, and changes nothing |
| LayoutSlots.TakeRestyleDamageKeepsFragments | crates/mini-servo/src/layout/node.rs:399-404 | taking damage leaves all fragment lookups as they were |
| ThreadSafeNode.HandleIsElement | crates/mini-servo/src/layout/safe_node.rs:24-26 | holds exactly for `Element` nodes |
| ThreadSafeNode.HandleIsTextNode | crates/mini-servo/src/layout/safe_node.rs:28-30 | holds exactly for `Text` nodes |
| ThreadSafeNode.NodeKindIgnoresPseudo | crates/mini-servo/src/layout/safe_node.rs:23-31 | `is_element` and `is_text_node` match the wrapped node, whatever the pseudo |
| ThreadSafeNode.TypeId | crates/mini-servo/src/layout/safe_node.rs:47-53 | no type exactly when a pseudo is set; otherwise the wrapped node's type |
| ThreadSafeNode.Children | crates/mini-servo/src/layout/safe_node.rs:65-68 | the children iterator traverses the wrapped node's traversal children |
| ThreadSafeNode.CollectChildren | crates/mini-servo/src/layout/safe_node.rs:65-68 | each child yielded wraps the matching traversal child with no pseudo, one per child and in order |
| ThreadSafeNode.AsElement | crates/mini-servo/src/layout/safe_node.rs:70-74 | an element handle exists exactly for element nodes; it wraps the same node and has no pseudo |
| ThreadSafeNode.AsHtmlElement | crates/mini-servo/src/layout/safe_node.rs:76-78 | present exactly when `as_element` is present and the element is HTML, and then equal to it |
| ThreadSafeNode.UnsafeGet | crates/mini-servo/src/layout/safe_node.rs:88-90 | returns the wrapped node; together with the pseudo it rebuilds the handle |
| ThreadSafeNode.PseudoElementOf | crates/mini-servo/src/layout/safe_node.rs:144-146 | returns the stored pseudo; together with the node it rebuilds the handle |
| ThreadSafeNode.ToThreadsafeRoundTrip | crates/mini-servo/src/layout/node.rs:188-193 | `to_threadsafe` and `unsafe_get` are inverse, and the handle's type is the node's type |
| ThreadSafeNode.SpanAttribute | crates/mini-servo/src/layout/safe_node.rs:132-142 | as intended: None exactly when the attribute is absent; otherwise the parse of its value |
| ThreadSafeNode.AsUint | crates/mini-servo/src/layout/safe_node.rs:133 | `as_uint` returns exactly for a `UInt` value, and then its number; any other variant panics |
| ThreadSafeNode.SpanAttributeAsWritten | crates/mini-servo/src/layout/safe_node.rs:132-142 | as written: `None` exactly when the attribute is absent, and a panic exactly when it is present |
| ThreadSafeNode.SpanGettersPanicOnPresentAttribute | crates/mini-servo/src/layout/safe_node.rs:136-138 | for a cell with `colspan="2"` the getter as written panics, while the intended one returns the parse of "2" |
| ThreadSafeNode.GetSpan | crates/mini-servo/src/layout/safe_node.rs:132-134 | None iff no attribute has local name `span`; otherwise, as intended, the parse of the first one's value |
| ThreadSafeNode.GetColspan | crates/mini-servo/src/layout/safe_node.rs:136-138 | None iff no attribute has local name `colspan`; otherwise, as intended, the parse of the first one's value |
| ThreadSafeNode.GetRowspan | crates/mini-servo/src/layout/safe_node.rs:140-142 | None iff no attribute has local name `rowspan`; otherwise, as intended, the parse of the first one's value |
| ThreadSafeNode.SpanUsesFirstAttribute | crates/mini-servo/src/layout/safe_node.rs:132-142 | span lookups ignore the pseudo and take the first attribute of that local name, in any namespace |
| ThreadSafeElement.ParentElement | crates/mini-servo/src/layout/safe_element.rs:23-25 | present exactly when the element has a parent element; it wraps that parent with no pseudo |
| ThreadSafeElement.ContainingShadowHost | crates/mini-servo/src/layout/safe_element.rs:31-33 | present exactly when there is a shadow host; it wraps the host with no pseudo |
| ThreadSafeElement.UpwardNavigationIgnoresPseudo | crates/mini-servo/src/layout/safe_element.rs:23-33 | upward navigation does not depend on the starting handle's pseudo |
| ThreadSafeElement.PrevSiblingElement | crates/mini-servo/src/layout/safe_element.rs:40-43 | always None |
| ThreadSafeElement.NextSiblingElement | crates/mini-servo/src/layout/safe_element.rs:46-49 | always None |
| ThreadSafeElement.FirstElementChild | crates/mini-servo/src/layout/safe_element.rs:52-55 | always None |
| ThreadSafeElement.WithPseudo | crates/mini-servo/src/layout/safe_element.rs:172-175 | always None, for every pseudo |
| ThreadSafeElement.AsNode | crates/mini-servo/src/layout/safe_element.rs:162-170 | a node handle over the same node, with no pseudo even when the element has one |
| ThreadSafeElement.TypeId | crates/mini-servo/src/layout/safe_element.rs:177-179 | always present, and equal to the wrapped node's type |
| ThreadSafeElement.TypeIdAcrossHandles | crates/mini-servo/src/layout/safe_element.rs:177-179 | the element's type does not depend on its pseudo, while the node handle with that pseudo has no type |
| ThreadSafeElement.UnsafeGet | crates/mini-servo/src/layout/safe_element.rs:181-183 | returns the wrapped element; together with the pseudo it rebuilds the handle |
| ThreadSafeElement.PseudoElementOf | crates/mini-servo/src/layout/safe_element.rs:206-208 | returns the stored pseudo; together with the element it rebuilds the handle |
| ThreadSafeElement.GetAttr | crates/mini-servo/src/layout/safe_element.rs:189-193 | None when the node has no attributes or none matches both name and namespace; otherwise the value of the first match |
| ThreadSafeElement.GetAttrMatchesNamespace | crates/mini-servo/src/layout/safe_element.rs:189-193 | an attribute in another namespace is not found by `get_attr`, although the local-name lookup finds it |
| ThreadSafeElement.IsShadowHost | crates/mini-servo/src/layout/safe_element.rs:210-212 | holds exactly when the node has a shadow root |
| ThreadSafeElement.IsRoot | crates/mini-servo/src/layout/safe_element.rs:218-220 | holds exactly for the document node, which has no element data |
| ThreadSafeElement.RootAndHostAreNodeFacts | crates/mini-servo/src/layout/safe_element.rs:210-220 | `is_root` iff the node is the document, `is_shadow_host` iff it has a shadow root, neither depends on the pseudo, and no handle from `as_element` is the root |
| ThreadSafeElement.AsNodeAsElementRoundTrip | crates/mini-servo/src/layout/safe_element.rs:162-170 | `as_element` then `as_node`, and `as_node` then `as_element`, return the original handle with its pseudo dropped |
| ThreadSafeElement.ConstructedElementsHaveNoPseudo | crates/mini-servo/src/layout/safe_element.rs:23-55 | every element handle produced by `as_element`, `as_html_element`, upward navigation or the stubs has no pseudo |
| ChildIter.SafeChildrenNext | crates/mini-servo/src/layout/iter.rs:14-19 | None exactly when the traverser is exhausted; otherwise its next node, wrapped with no pseudo; the traverser advances |
| ChildIter.LayoutNodeNext | crates/mini-servo/src/layout/iter.rs:29-31 | None exactly when the traverser is exhausted; otherwise its next node, wrapped; the traverser advances |
| ChildIter.CollectSafeChildren | crates/mini-servo/src/layout/iter.rs:11-20 | running the iterator to the end yields one item per traverser node, in order, each wrapping that node with no pseudo |
| ChildIter.CollectLayoutNodes | crates/mini-servo/src/layout/iter.rs:26-32 | running the iterator to the end yields exactly the traverser's nodes, wrapped, in order |
| ChildIter.SafeChildrenAreThreadsafeLayoutNodes | crates/mini-servo/src/layout/iter.rs:14-31 | over the same traverser, both iterators yield as many items as it holds, and the thread-safe one yields the plain one's nodes with no pseudo |

## Left out

- The frame pipeline of `bin/main.rs`: the compositor channel, the compositor thread spawn, the webrender setup and `spin_compositor` (`bin/main.rs:55-193`); the winit handler in `app.rs` and `bin/winit-minimal.rs`: concurrency glue around external engines. `app.rs` never reaches its running state and `window_event` is `todo!()`.
- Style traversal (`style/mod.rs`, `style.rs`): its behaviour lives inside stylo's traversal driver. `style/rcdom.rs` is all `todo!()` stubs and is not compiled.
- `parse.rs`, `util.rs`, `dummy.rs`: wrappers around html5ever and stylo with constant (partly floating-point) settings. `layout/element.rs`, `layout/mod.rs`, `core/mod.rs`: one-line forwarding and re-exports.
- The `NodeInfo`, `TDocument`, `TShadowRoot` and `TNode` impls of `BlitzLayoutNode` (`layout/node.rs:30-149`) forward to blitz_dom and have no logic of their own.
- The selector-matching methods of `SafeBlitzLayoutElement` that forward to the wrapped element, such as `has_id`, `attr_matches` and the selectors `is_root`. The same goes for `get_local_name`, `style_data` and `is_body_element_of_html_element_root`. None of these has logic of its own.
- The raw-pointer borrows in `style_data`/`layout_data` (`layout/node.rs:231-240`) are plain optional fields of the node here.
- `style` (`layout/node.rs:293-298`) only calls into servo. `clear_fragment_layout_cache` and `repair_style` (`layout/node.rs:370-397`) first call `layout_data_mut` (`layout/node.rs:371`, `384`), so they create the layout data when it is missing, exactly as `LayoutSlots.LayoutDataMut` does; the rest of their work happens inside servo's layout boxes, which are not part of this model.
- The `log::warn!` calls of `prev_sibling_element`, `next_sibling_element`, `first_element_child` and `with_pseudo` (`layout/safe_element.rs:41`, `47`, `53`, `173`) are logging only.
- The replaced-content accessors `as_image`, `as_canvas`, `as_iframe`, `as_video` and `as_typeless_object_with_data_attribute` (`layout/node.rs:262-291`) always return None.
- The `unreachable!`/`unimplemented!` methods of `SafeBlitzLayoutNode` (`layout/safe_node.rs:96-130`) and `get_attr_enum` (`layout/safe_element.rs:195-200`) panic on every call.
- `opaque`, `debug_id`, `parent_style`, `style_data`, `layout_data` and `node_text_content` of `SafeBlitzLayoutNode` forward to blitz_dom.
- `AttrValue::as_uint` is stylo's, and stylo's `attr.rs` is not part of this model. `ThreadSafeNode.AsUint` assumes it returns only for `AttrValue::UInt` and panics otherwise (see Findings). The intended getters take the string-to-number parse as a parameter.
- Tree navigation: blitz_dom's parent element, shadow host and traversal children. Each is a parameter.
- Two panics are not modelled. `layout_data_mut` unwraps a downcast to `DOMLayoutData` (`layout/node.rs:309-310`), which fails when `initialize_layout_data` or `initialize_style_and_layout_data` (`layout/node.rs:211-229`, generic in the layout-data type) stored another type; the model fixes the type to `DOMLayoutData`. The `AtomicRefCell`/`ArcRefCell` borrows (`layout/node.rs:312`, `323`, `346`, `401`) panic when a conflicting borrow is live; the model has no aliasing, so no borrow conflicts.
- The shared `ArcRefCell` box slots are values here. A slot handed out is named by its position in the layout data. `LayoutSlots.FillSlot` stands for storing a box through such a slot; the model does not follow several holders of one cell.
- `PseudoElement` is a representative subset of stylo's pseudo-elements. The model only compares them for equality.

## Findings

| source | as written | input that shows it | evidently intended | confidence | as-written member | corrected member |
|---|---|---|---|---|---|---|
| crates/mini-servo/src/layout/node.rs:242-245 | `is_connected` compares the whole flag set with `NodeFlags::IS_IN_DOCUMENT` | a node whose flags are `IS_IN_DOCUMENT` plus `IS_INLINE_ROOT`, for example a paragraph that is an inline root, is reported as not connected | the comment says the check is whether the node belongs to a document, that is `flags.contains(IS_IN_DOCUMENT)` | medium; not executed | LayoutNodeOps.IsConnectedMissesFlaggedNodes | LayoutNodeOps.IsConnectedIntendedProperties |
| crates/mini-servo/src/layout/safe_node.rs:132-142 | `get_span`, `get_colspan` and `get_rowspan` wrap the attribute's text as `AttrValue::String` and call `as_uint` on it | a table cell with `colspan="2"`: `as_uint` of a `String` value panics | parse the text as a number, for example with `AttrValue::from_u32` or `parse::<u32>` | medium; not executed (rests on `as_uint` panicking for non-`UInt` values) | ThreadSafeNode.SpanGettersPanicOnPresentAttribute | ThreadSafeNode.SpanAttribute |

=== FILE: child_iter.dfy ===
/**
  The child iterators of layout/iter.rs.  The underlying blitz_dom
  `Traverser` is modelled as the sequence of nodes it has yet to yield.
 */
module ChildIter {
  import opened Options
  import opened Dom
  import opened Handles

  /** blitz_dom's `Traverser`: the nodes still to come, in order. */
  datatype Traverser = Traverser(remaining: seq<Node>)

  /** `Traverser::next`: the first remaining node, or `None` when exhausted. */
  function TraverserNext(t: Traverser): (r: (Option<Node>, Traverser))
    ensures r.0.None? <==> |t.remaining| == 0
    ensures r.0.Some? ==> r.0.value == t.remaining[0] && r.1.remaining == t.remaining[1..]
  {
    if |t.remaining| == 0 then (None, t) else (Some(t.remaining[0]), Traverser(t.remaining[1..]))
  }

  /** `SafeBlitzChildrenIterator`. */
  datatype SafeChildrenIterator = SafeChildrenIterator(traverser: Traverser)

  /** `BlitzLayoutNodeIterator`. */
  datatype LayoutNodeIterator = LayoutNodeIterator(traverser: Traverser)

  /** `SafeBlitzChildrenIterator::next`: the traverser's next node, wrapped
      as a thread-safe node with no pseudo-element. */
  function SafeChildrenNext(it: SafeChildrenIterator): (r: (Option<SafeNode>, SafeChildrenIterator))
    ensures r.0.None? <==> TraverserNext(it.traverser).0.None?
    ensures r.0.Some? ==> r.0.value == SafeNode(LayoutNode(TraverserNext(it.traverser).0.value), None)
    ensures r.1.traverser == TraverserNext(it.traverser).1
  {
    var (v, t') := TraverserNext(it.traverser);
    match v
    case None => (None, SafeChildrenIterator(t'))
    case Some(value) => (Some(SafeNode(LayoutNode(value), None)), SafeChildrenIterator(t'))
  }

  /** `BlitzLayoutNodeIterator::next`: the traverser's next node, wrapped. */
  function LayoutNodeNext(it: LayoutNodeIterator): (r: (Option<LayoutNode>, LayoutNodeIterator))
    ensures r.0.None? <==> TraverserNext(it.traverser).0.None?
    ensures r.0.Some? ==> r.0.value == LayoutNode(TraverserNext(it.traverser).0.value)
    ensures r.1.traverser == TraverserNext(it.traverser).1
  {
    var (v, t') := TraverserNext(it.traverser);
    match v
    case None => (None, LayoutNodeIterator(t'))
    case Some(value) => (Some(LayoutNode(value)), LayoutNodeIterator(t'))
  }

  /** Everything a `SafeBlitzChildrenIterator` yields until it returns `None`. */
  function DrainSafeChildren(it: SafeChildrenIterator): seq<SafeNode>
    decreases |it.traverser.remaining|
  {
    var (v, it') := SafeChildrenNext(it);
    match v
    case None => []
    case Some(x) => [x] + DrainSafeChildren(it')
  }

  /** Everything a `BlitzLayoutNodeIterator` yields until it returns `None`. */
  function DrainLayoutNodes(it: LayoutNodeIterator): seq<LayoutNode>
    decreases |it.traverser.remaining|
  {
    var (v, it') := LayoutNodeNext(it);
    match v
    case None => []
    case Some(x) => [x] + DrainLayoutNodes(it')
  }

  /** Runs a `SafeBlitzChildrenIterator` to exhaustion: one item per
      traverser node, in order, each wrapping that node unchanged with no
      pseudo-element. */
  method CollectSafeChildren(it: SafeChildrenIterator) returns (items: seq<SafeNode>)
    ensures |items| == |it.traverser.remaining|
    ensures forall i :: 0 <= i < |items| ==> items[i] == SafeNode(LayoutNode(it.traverser.remaining[i]), None)
  {
    var cur := it;
    items := [];
    var done := false;
    while !done
      invariant 0 <= |items| <= |it.traverser.remaining|
      invariant cur.traverser.remaining == it.traverser.remaining[|items|..]
      invariant done ==> |items| == |it.traverser.remaining|
      invariant forall i :: 0 <= i < |items| ==> items[i] == SafeNode(LayoutNode(it.traverser.remaining[i]), None)
      decreases |cur.traverser.remaining| + (if done then 0 else 1)
    {
      var (v, next) := SafeChildrenNext(cur);
      match v {
        case None =>
          done := true;
        case Some(x) =>
          items := items + [x];
          cur := next;
      }
    }
  }

  /** Runs a `BlitzLayoutNodeIterator` to exhaustion: exactly the traverser's
      nodes, wrapped, in order. */
  method CollectLayoutNodes(it: LayoutNodeIterator) returns (items: seq<LayoutNode>)
    ensures |items| == |it.traverser.remaining|
    ensures forall i :: 0 <= i < |items| ==> items[i] == LayoutNode(it.traverser.remaining[i])
  {
    var cur := it;
    items := [];
    var done := false;
    while !done
      invariant 0 <= |items| <= |it.traverser.remaining|
      invariant cur.traverser.remaining == it.traverser.remaining[|items|..]
      invariant done ==> |items| == |it.traverser.remaining|
      invariant forall i :: 0 <= i < |items| ==> items[i] == LayoutNode(it.traverser.remaining[i])
      decreases |cur.traverser.remaining| + (if done then 0 else 1)
    {
      var (v, next) := LayoutNodeNext(cur);
      match v {
        case None =>
          done := true;
        case Some(x) =>
          items := items + [x];
          cur := next;
      }
    }
  }

  /** The thread-safe iterator yields, item for item, the thread-safe form
      (no pseudo-element) of what the plain iterator yields over the same
      traverser; in particular both yield as many items as the traverser. */
  lemma {:induction false} SafeChildrenAreThreadsafeLayoutNodes(t: Traverser)
    ensures |DrainSafeChildren(SafeChildrenIterator(t))| == |DrainLayoutNodes(LayoutNodeIterator(t))| == |t.remaining|
    ensures forall i :: 0 <= i < |t.remaining| ==>
      DrainSafeChildren(SafeChildrenIterator(t))[i] == SafeNode(DrainLayoutNodes(LayoutNodeIterator(t))[i], None)
    decreases |t.remaining|
  {
    if |t.remaining| > 0 {
      SafeChildrenAreThreadsafeLayoutNodes(TraverserNext(t).1);
    }
  }
}

=== FILE: classify.dfy ===
/**
  Element classification: the fixed table (layout/node.rs) that tells the
  layout engine which kind of element a qualified name denotes.
 */
module Classify {
  import opened Dom

  /** servo's `LayoutElementType`. */
  datatype LayoutElementType =
    | PlainElement  // `LayoutElementType::Element`: no more specific type
    | HTMLBodyElement
    | HTMLBRElement
    | HTMLCanvasElement
    | HTMLHtmlElement
    | HTMLIFrameElement
    | HTMLImageElement
    | HTMLMediaElement
    | HTMLInputElement
    | HTMLOptGroupElement
    | HTMLOptionElement
    | HTMLObjectElement
    | HTMLParagraphElement
    | HTMLPreElement
    | HTMLSelectElement
    | HTMLTableCellElement
    | HTMLTableColElement
    | HTMLTableElement
    | HTMLTableRowElement
    | HTMLTableSectionElement
    | HTMLTextAreaElement
    | SVGImageElement
    | SVGSVGElement

  /** servo's `LayoutNodeType`: an element of some kind, or text. */
  datatype LayoutNodeType = ElementType(kind: LayoutElementType) | TextType

  /** `element_data_local_name_to_layout_node_type`, on the element's name. */
  function ElementTypeOfName(name: QualName): (r: LayoutElementType)
    ensures name.ns.Other? ==> r == PlainElement
    ensures r == SVGImageElement || r == SVGSVGElement ==> name.ns == Svg
    ensures r != PlainElement && r != SVGImageElement && r != SVGSVGElement ==> name.ns == Html
  {
    match name.ns
    case Svg =>
      if name.local == "image" then SVGImageElement
      else if name.local == "svg" then SVGSVGElement
      else PlainElement
    case Html =>
      var l := name.local;
      if l == "body" then HTMLBodyElement
      else if l == "br" then HTMLBRElement
      else if l == "canvas" then HTMLCanvasElement
      else if l == "html" then HTMLHtmlElement
      else if l == "iframe" then HTMLIFrameElement
      else if l == "img" || l == "image" then HTMLImageElement
      else if l == "audio" || l == "video" then HTMLMediaElement
      else if l == "input" then HTMLInputElement
      else if l == "optgroup" then HTMLOptGroupElement
      else if l == "option" then HTMLOptionElement
      else if l == "object" then HTMLObjectElement
      else if l == "p" then HTMLParagraphElement
      else if l == "pre" then HTMLPreElement
      else if l == "select" then HTMLSelectElement
      else if l == "td" then HTMLTableCellElement
      else if l == "col" then HTMLTableColElement
      else if l == "table" then HTMLTableElement
      else if l == "tr" then HTMLTableRowElement
      else if l == "thead" then HTMLTableSectionElement
      else if l == "textarea" then HTMLTextAreaElement
      else PlainElement
    case Other(_) => PlainElement
  }

  function ElementTypeOf(el: ElementData): LayoutElementType
  {
    ElementTypeOfName(el.name)
  }

  // ---------------------------------------------------------------------
  // Reference definition: the names that denote each specific type
  // ---------------------------------------------------------------------

  /** Every qualified name that denotes `t`, listed per type; `Element` is
      what every name outside these lists denotes. */
  function NamesOf(t: LayoutElementType): set<QualName>
  {
    match t
    case PlainElement => {}
    case HTMLBodyElement => {QualName(Html, "body")}
    case HTMLBRElement => {QualName(Html, "br")}
    case HTMLCanvasElement => {QualName(Html, "canvas")}
    case HTMLHtmlElement => {QualName(Html, "html")}
    case HTMLIFrameElement => {QualName(Html, "iframe")}
    case HTMLImageElement => {QualName(Html, "img"), QualName(Html, "image")}
    case HTMLMediaElement => {QualName(Html, "audio"), QualName(Html, "video")}
    case HTMLInputElement => {QualName(Html, "input")}
    case HTMLOptGroupElement => {QualName(Html, "optgroup")}
    case HTMLOptionElement => {QualName(Html, "option")}
    case HTMLObjectElement => {QualName(Html, "object")}
    case HTMLParagraphElement => {QualName(Html, "p")}
    case HTMLPreElement => {QualName(Html, "pre")}
    case HTMLSelectElement => {QualName(Html, "select")}
    case HTMLTableCellElement => {QualName(Html, "td")}
    case HTMLTableColElement => {QualName(Html, "col")}
    case HTMLTableElement => {QualName(Html, "table")}
    case HTMLTableRowElement => {QualName(Html, "tr")}
    case HTMLTableSectionElement => {QualName(Html, "thead")}
    case HTMLTextAreaElement => {QualName(Html, "textarea")}
    case SVGImageElement => {QualName(Svg, "image")}
    case SVGSVGElement => {QualName(Svg, "svg")}
  }

  /** One name for each type; `Element` is represented by an unlisted tag. */
  function Representative(t: LayoutElementType): (q: QualName)
    ensures t != PlainElement ==> q in NamesOf(t)
  {
    match t
    case PlainElement => QualName(Html, "div")
    case HTMLBodyElement => QualName(Html, "body")
    case HTMLBRElement => QualName(Html, "br")
    case HTMLCanvasElement => QualName(Html, "canvas")
    case HTMLHtmlElement => QualName(Html, "html")
    case HTMLIFrameElement => QualName(Html, "iframe")
    case HTMLImageElement => QualName(Html, "img")
    case HTMLMediaElement => QualName(Html, "video")
    case HTMLInputElement => QualName(Html, "input")
    case HTMLOptGroupElement => QualName(Html, "optgroup")
    case HTMLOptionElement => QualName(Html, "option")
    case HTMLObjectElement => QualName(Html, "object")
    case HTMLParagraphElement => QualName(Html, "p")
    case HTMLPreElement => QualName(Html, "pre")
    case HTMLSelectElement => QualName(Html, "select")
    case HTMLTableCellElement => QualName(Html, "td")
    case HTMLTableColElement => QualName(Html, "col")
    case HTMLTableElement => QualName(Html, "table")
    case HTMLTableRowElement => QualName(Html, "tr")
    case HTMLTableSectionElement => QualName(Html, "thead")
    case HTMLTextAreaElement => QualName(Html, "textarea")
    case SVGImageElement => QualName(Svg, "image")
    case SVGSVGElement => QualName(Svg, "svg")
  }

  // ---------------------------------------------------------------------
  // Properties
  // ---------------------------------------------------------------------

  /** The table and the per-type name lists agree, in both directions: a
      name denotes a specific type exactly when it is listed for it. */
  lemma ElementTypeOfNameMatchesNamesOf(q: QualName, t: LayoutElementType)
    requires t != PlainElement
    ensures ElementTypeOfName(q) == t <==> q in NamesOf(t)
  {
    if ElementTypeOfName(q) == t {
      ClassifiedIsListed(q);
    }
    if q in NamesOf(t) {
      ListedIsClassified(q, t);
    }
  }

  lemma ClassifiedIsListed(q: QualName)
    requires ElementTypeOfName(q) != PlainElement
    ensures q in NamesOf(ElementTypeOfName(q))
  {
  }

  lemma ListedIsClassified(q: QualName, t: LayoutElementType)
    requires q in NamesOf(t)
    ensures ElementTypeOfName(q) == t
  {
    match t
    case HTMLBodyElement => DocumentStructureTags();
    case HTMLBRElement => DocumentStructureTags();
    case HTMLCanvasElement => DocumentStructureTags();
    case HTMLHtmlElement => DocumentStructureTags();
    case HTMLIFrameElement => DocumentStructureTags();
    case HTMLImageElement => HtmlAliases();
    case HTMLMediaElement => HtmlAliases();
    case HTMLInputElement => InputAndOptionTags();
    case HTMLOptGroupElement => InputAndOptionTags();
    case HTMLOptionElement => InputAndOptionTags();
    case HTMLObjectElement => ObjectAndTextBlockTags();
    case HTMLParagraphElement => ObjectAndTextBlockTags();
    case HTMLPreElement => ObjectAndTextBlockTags();
    case HTMLSelectElement => SelectAndTextAreaTags();
    case HTMLTextAreaElement => SelectAndTextAreaTags();
    case HTMLTableCellElement => TableTags();
    case HTMLTableColElement => TableTags();
    case HTMLTableElement => TableTags();
    case HTMLTableRowElement => TableRowTags();
    case HTMLTableSectionElement => TableRowTags();
    case SVGImageElement => SvgClassification("image");
    case SVGSVGElement => SvgClassification("svg");
  }

  /** The first five HTML arms (`body` to `iframe`): each tag has its own
      type.  The example lemmas follow the HTML arms in order, a few arms at a
      time. */
  lemma DocumentStructureTags()
    ensures ElementTypeOfName(QualName(Html, "body")) == HTMLBodyElement
    ensures ElementTypeOfName(QualName(Html, "br")) == HTMLBRElement
    ensures ElementTypeOfName(QualName(Html, "canvas")) == HTMLCanvasElement
    ensures ElementTypeOfName(QualName(Html, "html")) == HTMLHtmlElement
    ensures ElementTypeOfName(QualName(Html, "iframe")) == HTMLIFrameElement
  {
  }

  /** The arms after the image and media aliases: `input`, `optgroup`,
      `option`. */
  lemma InputAndOptionTags()
    ensures ElementTypeOfName(QualName(Html, "input")) == HTMLInputElement
    ensures ElementTypeOfName(QualName(Html, "optgroup")) == HTMLOptGroupElement
    ensures ElementTypeOfName(QualName(Html, "option")) == HTMLOptionElement
  {
  }

  /** The two arms on either side of the table arms: `select` and
      `textarea`. */
  lemma SelectAndTextAreaTags()
    ensures ElementTypeOfName(QualName(Html, "select")) == HTMLSelectElement
    ensures ElementTypeOfName(QualName(Html, "textarea")) == HTMLTextAreaElement
  {
  }

  /** The arms `object`, `p` and `pre`. */
  lemma ObjectAndTextBlockTags()
    ensures ElementTypeOfName(QualName(Html, "object")) == HTMLObjectElement
    ensures ElementTypeOfName(QualName(Html, "p")) == HTMLParagraphElement
    ensures ElementTypeOfName(QualName(Html, "pre")) == HTMLPreElement
  {
  }

  /** The first three table arms: `td`, `col`, `table`. */
  lemma TableTags()
    ensures ElementTypeOfName(QualName(Html, "td")) == HTMLTableCellElement
    ensures ElementTypeOfName(QualName(Html, "col")) == HTMLTableColElement
    ensures ElementTypeOfName(QualName(Html, "table")) == HTMLTableElement
  {
  }

  /** The last two table arms: `tr`, `thead`. */
  lemma TableRowTags()
    ensures ElementTypeOfName(QualName(Html, "tr")) == HTMLTableRowElement
    ensures ElementTypeOfName(QualName(Html, "thead")) == HTMLTableSectionElement
  {
  }

  /** The fallback direction: a name denotes plain `Element` exactly when no
      type lists it. */
  lemma PlainElementIffUnlisted(q: QualName)
    ensures ElementTypeOfName(q) == PlainElement <==> forall t :: q !in NamesOf(t)
  {
    if ElementTypeOfName(q) != PlainElement {
      ClassifiedIsListed(q);
    } else {
      forall t | q in NamesOf(t)
        ensures false
      {
        ListedIsClassified(q, t);
      }
    }
  }

  /** Every type is the classification of its representative name, so the
      table reaches all of `LayoutElementType`. */
  lemma RepresentativeRoundTrip(t: LayoutElementType)
    ensures ElementTypeOfName(Representative(t)) == t
  {
    if t != PlainElement {
      ListedIsClassified(Representative(t), t);
    }
  }

  /** In the SVG namespace only `image` and `svg` have a type of their own. */
  lemma SvgClassification(local: string)
    ensures ElementTypeOfName(QualName(Svg, local)) == SVGImageElement <==> local == "image"
    ensures ElementTypeOfName(QualName(Svg, local)) == SVGSVGElement <==> local == "svg"
    ensures local != "image" && local != "svg" ==> ElementTypeOfName(QualName(Svg, local)) == PlainElement
  {
  }

  /** `img`/`image` are both images and `audio`/`video` both media in HTML;
      the SVG `image` is a different type from the HTML one. */
  lemma HtmlAliases()
    ensures ElementTypeOfName(QualName(Html, "img")) == ElementTypeOfName(QualName(Html, "image")) == HTMLImageElement
    ensures ElementTypeOfName(QualName(Html, "audio")) == ElementTypeOfName(QualName(Html, "video")) == HTMLMediaElement
    ensures ElementTypeOfName(QualName(Svg, "image")) != ElementTypeOfName(QualName(Html, "image"))
  {
  }

  /** Every namespace other than HTML and SVG falls back to plain `Element`. */
  lemma OtherNamespacesArePlain(q: QualName)
    requires q.ns.Other?
    ensures ElementTypeOfName(q) == PlainElement
  {
  }

  /** Unlisted tags get no type of their own: the neighbours `th` and
      `tbody` of the listed table tags, and a heading such as `h1`. */
  lemma UnlistedTagsArePlain()
    ensures ElementTypeOfName(QualName(Html, "th")) == PlainElement
    ensures ElementTypeOfName(QualName(Html, "tbody")) == PlainElement
    ensures ElementTypeOfName(QualName(Html, "h1")) == PlainElement
  {
  }
}

=== FILE: dom.dfy ===
/**
  The slice of the blitz_dom node that the layout adapters read and write.

  A node is a value: its own data, its flags, its style-data and layout-data
  cells (plain options here, the raw-pointer borrows of the source aside) and
  the identity of its shadow root.  Tree navigation is not part of a node;
  the operations that need it take it as a parameter.

  The blitz_dom accessors at the bottom of this module are stand-ins for
  library code that is not part of this model; each says what it assumes.
 */
module Dom {
  import opened Options
  import opened Seqs

  type NodeId = nat

  /** html5ever namespaces: `ns!(html)`, `ns!(svg)`, and any other by its URL
      (the empty URL is the null namespace of ordinary attributes). */
  datatype Namespace = Html | Svg | Other(url: ForeignUrl)

  const HtmlUrl: string := "http://www.w3.org/1999/xhtml"
  const SvgUrl: string := "http://www.w3.org/2000/svg"

  /** A namespace URL other than those of HTML and SVG, so that each
      namespace has exactly one representation. */
  type ForeignUrl = u: string | u != HtmlUrl && u != SvgUrl witness ""

  datatype QualName = QualName(ns: Namespace, local: string)

  datatype Attribute = Attribute(name: QualName, value: string)

  datatype ElementData = ElementData(name: QualName, attrs: seq<Attribute>)

  /** blitz_dom's `NodeData`. */
  datatype NodeData =
    | Document
    | Element(el: ElementData)
    | AnonymousBlock(el: ElementData)
    | Text(text: string)
    | Comment

  /** The bits of blitz_dom's `NodeFlags`. */
  datatype NodeFlag = IsInlineRoot | IsTableRoot | IsInDocument

  /** A representative set of stylo's pseudo-elements; the model only ever
      compares them for equality. */
  datatype PseudoElement = Before | After | Marker | Backdrop | Selection | DetailsSummary | DetailsContent

  /** A fragment of the fragment tree, known only by its identity. */
  datatype Fragment = Fragment(id: nat)

  /** A box of the box tree, known only by the fragments it produced. */
  datatype LayoutBox = LayoutBox(fragments: seq<Fragment>)

  /** One generated box slot for a pseudo-element. */
  datatype PseudoLayoutData = PseudoLayoutData(pseudo: PseudoElement, boxSlot: Option<LayoutBox>)

  /** servo's `InnerDOMLayoutData`: the element's own box slot and the
      pseudo-element box slots, in the order they were handed out. */
  datatype LayoutData = LayoutData(selfBox: Option<LayoutBox>, pseudoBoxes: seq<PseudoLayoutData>)

  /** `InnerDOMLayoutData::default()`. */
  const EmptyLayoutData: LayoutData := LayoutData(None, [])

  /** The bits of servo's `RestyleDamage` (and of `LayoutDamage`, which keeps
      the same bits). */
  datatype DamageBit = Repaint | RecalculateOverflow | Relayout | RebuildBox

  /** `RestyleDamage::default()`: no damage. */
  const NoDamage: set<DamageBit> := {}

  /** `RestyleDamage::reconstruct()`: the box must be rebuilt, which implies
      every other kind of damage. */
  const Reconstruct: set<DamageBit> := {Repaint, RecalculateOverflow, Relayout, RebuildBox}

  /** The part of stylo's per-element data the adapters touch. */
  datatype StyleData = StyleData(damage: set<DamageBit>)

  datatype Node = Node(
    id: NodeId,
    data: NodeData,
    flags: set<NodeFlag>,
    styleData: Option<StyleData>,
    layoutData: Option<LayoutData>,
    shadowRoot: Option<NodeId>)

  // ---------------------------------------------------------------------
  // blitz_dom accessors (stand-ins)
  // ---------------------------------------------------------------------

  /** `Node::element_data`: elements and anonymous blocks carry element data. */
  function ElementDataOf(n: Node): Option<ElementData>
  {
    match n.data
    case Element(el) => Some(el)
    case AnonymousBlock(el) => Some(el)
    case _ => None
  }

  /** `Node::attrs`. */
  function Attrs(n: Node): Option<seq<Attribute>>
  {
    match ElementDataOf(n)
    case Some(el) => Some(el.attrs)
    case None => None
  }

  /** The attributes of a node, none for a node without element data. */
  function AttrsOrEmpty(n: Node): seq<Attribute>
  {
    match Attrs(n)
    case None => []
    case Some(a) => a
  }

  /** The test `attr.name.local == local` of a local-name lookup. */
  function LocalNameIs(local: string): Attribute -> bool
  {
    (a: Attribute) => a.name.local == local
  }

  /** `ElementData::attr` / `Node::attr`: the value of the first attribute
      with the given local name, namespace ignored. */
  function AttrByLocal(n: Node, local: string): (r: Option<string>)
    ensures r.Some? <==> Attrs(n).Some? && exists j :: 0 <= j < |Attrs(n).value| && Attrs(n).value[j].name.local == local
    ensures r.Some? ==> exists i :: && 0 <= i < |Attrs(n).value|
                                    && Attrs(n).value[i].name.local == local
                                    && Attrs(n).value[i].value == r.value
                                    && forall j :: 0 <= j < i ==> Attrs(n).value[j].name.local != local
  {
    match Attrs(n)
    case None => None
    case Some(attrs) =>
      match FirstIndex(attrs, LocalNameIs(local))
      case None => None
      case Some(i) => Some(attrs[i].value)
  }

  /** `Node::is_element`. */
  predicate IsElementNode(n: Node)
  {
    n.data.Element?
  }

  /** `Node::is_text_node`. */
  predicate IsTextNode(n: Node)
  {
    n.data.Text?
  }

  /** `TElement::is_html_element`: element data in the HTML namespace. */
  predicate IsHtmlElement(n: Node)
  {
    ElementDataOf(n).Some? && ElementDataOf(n).value.name.ns == Html
  }
}

=== FILE: handles.dfy ===
/**
  The four handle types of the layout adapters (layout/node.rs,
  layout/safe_node.rs, layout/safe_element.rs).  Each wraps a blitz_dom node;
  the thread-safe ones add the pseudo-element they stand for, if any.
 */
module Handles {
  import opened Options
  import opened Dom

  /** `BlitzLayoutNode`. */
  datatype LayoutNode = LayoutNode(value: Node)

  /** `BlitzLayoutElement`. */
  datatype LayoutElement = LayoutElement(value: Node)

  /** `SafeBlitzLayoutNode`. */
  datatype SafeNode = SafeNode(node: LayoutNode, pseudo: Option<PseudoElement>)

  /** `SafeBlitzLayoutElement`. */
  datatype SafeElement = SafeElement(element: LayoutElement, pseudo: Option<PseudoElement>)
}

=== FILE: layout_node.dfy ===
/**
  The `LayoutNode` / `LayoutNodeExt` side of `BlitzLayoutNode`
  (layout/node.rs): its layout type, text-input status, connectedness and
  conversion to the thread-safe handle.
 */
module LayoutNodeOps {
  import opened Options
  import opened Dom
  import opened Classify
  import opened Handles

  /** `LayoutNode::type_id`.  Comment nodes are `unreachable!()` there, so
      callers must not ask about them. */
  function TypeId(n: LayoutNode): (r: LayoutNodeType)
    requires !n.value.data.Comment?
    ensures r == TextType <==> IsTextNode(n.value)
    ensures r.ElementType? && ElementDataOf(n.value).Some? ==> r.kind == ElementTypeOf(ElementDataOf(n.value).value)
    ensures n.value.data.Document? ==> r == ElementType(HTMLHtmlElement)
  {
    match n.value.data
    case Document => ElementType(HTMLHtmlElement)
    case Element(el) => ElementType(ElementTypeOf(el))
    case AnonymousBlock(el) => ElementType(ElementTypeOf(el))
    case Text(_) => TextType
  }

  /** An element and an anonymous block with the same element data get the
      same layout type, and the document gets the type of an HTML `html`
      element. */
  lemma TypeIdIgnoresNodeKind(n: Node, el: ElementData)
    ensures TypeId(LayoutNode(n.(data := Element(el)))) == TypeId(LayoutNode(n.(data := AnonymousBlock(el))))
    ensures TypeId(LayoutNode(n.(data := Document)))
         == TypeId(LayoutNode(n.(data := Element(ElementData(QualName(Html, "html"), el.attrs)))))
  {
  }

  /** `LayoutNode::to_threadsafe`. */
  function ToThreadsafe(n: LayoutNode): (r: SafeNode)
    ensures r.pseudo.None?
    ensures r.node == n
  {
    SafeNode(n, None)
  }

  /** `LayoutNodeExt::is_text_input`: a `textarea`, or an `input` whose
      `type` attribute is missing or anything but exactly "color".  Only
      `NodeData::Element` nodes qualify, and the namespace is not looked at. */
  predicate IsTextInput(n: LayoutNode): (b: bool)
    ensures b ==> n.value.data.Element? && n.value.data.el.name.local in {"textarea", "input"}
    ensures b && n.value.data.el.name.local == "input" ==> AttrByLocal(n.value, "type") != Some("color")
  {
    match n.value.data
    case Element(el) =>
      if el.name.local == "textarea" then true
      else if el.name.local == "input" then
        match AttrByLocal(n.value, "type")
        case None => true
        case Some(s) => s != "color"
      else false
    case _ => false
  }

  /** What makes a node a text input, in both directions. */
  lemma IsTextInputIff(n: LayoutNode)
    ensures IsTextInput(n) <==>
      && n.value.data.Element?
      && (|| n.value.data.el.name.local == "textarea"
          || (n.value.data.el.name.local == "input" && AttrByLocal(n.value, "type") != Some("color")))
  {
  }

  /** Text-input status does not depend on the element's namespace. */
  lemma IsTextInputIgnoresNamespace(n: Node, el: ElementData, ns: Namespace)
    ensures IsTextInput(LayoutNode(n.(data := Element(el))))
         == IsTextInput(LayoutNode(n.(data := Element(el.(name := el.name.(ns := ns))))))
  {
  }

  /** A `type="color"` attribute placed first turns an `input` into a
      non-text input, and any other first `type` value keeps it one. */
  lemma ColorInputIsNotTextInput(n: Node, ns: Namespace, attrNs: Namespace, value: string, rest: seq<Attribute>)
    ensures !IsTextInput(LayoutNode(n.(data := Element(ElementData(QualName(ns, "input"),
              [Attribute(QualName(attrNs, "type"), "color")] + rest)))))
    ensures value != "color" ==> IsTextInput(LayoutNode(n.(data := Element(ElementData(QualName(ns, "input"),
              [Attribute(QualName(attrNs, "type"), value)] + rest)))))
  {
  }

  /** In the HTML namespace every text input is classified as an input or a
      textarea element. */
  lemma TextInputIsInputOrTextArea(n: LayoutNode)
    requires IsTextInput(n) && n.value.data.el.name.ns == Html
    ensures TypeId(n) == ElementType(HTMLInputElement) || TypeId(n) == ElementType(HTMLTextAreaElement)
  {
  }

  /** `LayoutNode::is_connected` as written: the flag set must be EXACTLY
      `{IS_IN_DOCUMENT}`. */
  predicate IsConnected(n: LayoutNode): (b: bool)
    ensures b ==> IsInDocument in n.value.flags
    ensures b ==> IsInlineRoot !in n.value.flags && IsTableRoot !in n.value.flags
    ensures IsInDocument in n.value.flags && IsInlineRoot !in n.value.flags && IsTableRoot !in n.value.flags ==> b
  {
    OnlyInDocumentFlag(n.value.flags);
    n.value.flags == {IsInDocument}
  }

  /** `IS_IN_DOCUMENT`, `IS_INLINE_ROOT` and `IS_TABLE_ROOT` are the only
      node flags, so a set holding the first and neither root flag is
      exactly `{IS_IN_DOCUMENT}`. */
  lemma OnlyInDocumentFlag(flags: set<NodeFlag>)
    ensures IsInDocument in flags && IsInlineRoot !in flags && IsTableRoot !in flags ==> flags == {IsInDocument}
  {
    if IsInDocument in flags && IsInlineRoot !in flags && IsTableRoot !in flags {
      forall f | f in flags
        ensures f == IsInDocument
      {
      }
    }
  }

  /** An in-document node that is also an inline root is reported as not
      connected by the code as written. */
  lemma IsConnectedMissesFlaggedNodes(n: Node)
    requires n.flags == {IsInDocument, IsInlineRoot}
    ensures !IsConnected(LayoutNode(n))
    ensures IsConnectedIntended(LayoutNode(n))
  {
    assert IsInlineRoot in n.flags;
  }

  /** `is_connected` as its comment describes it: the node belongs to a
      document, whatever other flags it has. */
  predicate IsConnectedIntended(n: LayoutNode)
  {
    IsInDocument in n.value.flags
  }

  /** The intended test accepts every node the written one accepts, and its
      answer depends on the in-document flag alone: adding or removing any
      other flag never changes it. */
  lemma IsConnectedIntendedProperties(n: LayoutNode, other: set<NodeFlag>)
    requires IsInDocument !in other
    ensures IsConnected(n) ==> IsConnectedIntended(n)
    ensures IsConnectedIntended(LayoutNode(n.value.(flags := n.value.flags + other))) == IsConnectedIntended(n)
    ensures IsConnectedIntended(LayoutNode(n.value.(flags := n.value.flags - other))) == IsConnectedIntended(n)
  {
  }
}

=== FILE: layout_slots.dfy ===
/**
  Per-node layout data (layout/node.rs, `NodeExt` for `BlitzLayoutNode`):
  lazy initialisation of the layout-data cell, the box slots handed out to
  box-tree construction, clearing them, reading fragments back, and taking
  the restyle damage.  The shared `ArcRefCell` box slots of the source are
  values here: an operation returns the updated node, and a slot is named by
  where it lives in the node's layout data.
 */
module LayoutSlots {
  import opened Options
  import opened Dom
  import opened Handles
  import opened Seqs

  /** Where a handed-out box slot lives. */
  datatype SlotRef = SelfSlot | PseudoSlot(index: nat)

  /** The node with its layout-data cell replaced. */
  function WithLayoutData(n: LayoutNode, ld: Option<LayoutData>): LayoutNode
  {
    LayoutNode(n.value.(layoutData := ld))
  }

  /** `initialize_layout_data`: a fresh, empty layout-data record. */
  function InitializeLayoutData(n: LayoutNode): (r: LayoutNode)
    ensures r.value.layoutData == Some(EmptyLayoutData)
    ensures r.value.(layoutData := n.value.layoutData) == n.value
  {
    WithLayoutData(n, Some(EmptyLayoutData))
  }

  /** `initialize_style_and_layout_data`: both cells are reset to their
      `Default`, which for an optional cell is empty. */
  function InitializeStyleAndLayoutData(n: LayoutNode): (r: LayoutNode)
    ensures r.value.styleData.None? && r.value.layoutData.None?
    ensures r.value.(styleData := n.value.styleData, layoutData := n.value.layoutData) == n.value
  {
    LayoutNode(n.value.(styleData := None, layoutData := None))
  }

  /** `layout_data_mut`: the node's layout data, created empty first if the
      cell was empty.  Returns the updated node and the data it now holds. */
  function LayoutDataMut(n: LayoutNode): (r: (LayoutNode, LayoutData))
    ensures r.0.value.layoutData == Some(r.1)
    ensures n.value.layoutData.Some? ==> r.0 == n && r.1 == n.value.layoutData.value
    ensures n.value.layoutData.None? ==> r.1 == EmptyLayoutData
    ensures r.0.value.(layoutData := n.value.layoutData) == n.value
  {
    var n' := if n.value.layoutData.None? then InitializeLayoutData(n) else n;
    (n', n'.value.layoutData.value)
  }

  /** `element_box_slot`: the element's own slot, after initialisation. */
  function ElementBoxSlot(n: LayoutNode): (r: (LayoutNode, SlotRef))
    ensures r.0.value.layoutData.Some?
    ensures SlotContents(r.0, r.1) == Some(if n.value.layoutData.Some? then n.value.layoutData.value.selfBox else None)
    ensures n.value.layoutData.Some? ==> r.0 == n
    ensures r.0.value.(layoutData := n.value.layoutData) == n.value
  {
    (LayoutDataMut(n).0, SelfSlot)
  }

  /** `pseudo_element_box_slot`: appends one empty slot for `pseudo` and
      hands it out. */
  function PseudoElementBoxSlot(n: LayoutNode, pseudo: PseudoElement): (r: (LayoutNode, SlotRef))
    ensures r.0.value.layoutData.Some?
    ensures var before := LayoutDataMut(n).1;
            var after := r.0.value.layoutData.value;
            && after.selfBox == before.selfBox
            && after.pseudoBoxes == before.pseudoBoxes + [PseudoLayoutData(pseudo, None)]
    ensures r.1 == PseudoSlot(|LayoutDataMut(n).1.pseudoBoxes|)
    ensures SlotContents(r.0, r.1) == Some(None)
    ensures r.0.value.(layoutData := n.value.layoutData) == n.value
  {
    var (n1, ld) := LayoutDataMut(n);
    var ld' := ld.(pseudoBoxes := ld.pseudoBoxes + [PseudoLayoutData(pseudo, None)]);
    (WithLayoutData(n1, Some(ld')), PseudoSlot(|ld.pseudoBoxes|))
  }

  /** What a handed-out slot currently holds, or `None` if it does not
      exist in the node's layout data. */
  function SlotContents(n: LayoutNode, slot: SlotRef): Option<Option<LayoutBox>>
  {
    match n.value.layoutData
    case None => None
    case Some(ld) =>
      match slot
      case SelfSlot => Some(ld.selfBox)
      case PseudoSlot(i) => if i < |ld.pseudoBoxes| then Some(ld.pseudoBoxes[i].boxSlot) else None
  }

  /** Box-tree construction storing `b` through a handed-out slot (the
      shared cell's `set`): that slot then holds `b`, every other slot keeps
      what it held, and nothing outside the layout data changes. */
  function FillSlot(n: LayoutNode, slot: SlotRef, b: LayoutBox): (r: LayoutNode)
    requires SlotContents(n, slot).Some?
    ensures SlotContents(r, slot) == Some(Some(b))
    ensures forall other :: other != slot ==> SlotContents(r, other) == SlotContents(n, other)
    ensures |r.value.layoutData.value.pseudoBoxes| == |n.value.layoutData.value.pseudoBoxes|
    ensures forall j :: 0 <= j < |n.value.layoutData.value.pseudoBoxes| ==>
              r.value.layoutData.value.pseudoBoxes[j].pseudo == n.value.layoutData.value.pseudoBoxes[j].pseudo
    ensures r.value.(layoutData := n.value.layoutData) == n.value
  {
    var ld := n.value.layoutData.value;
    match slot
    case SelfSlot => WithLayoutData(n, Some(ld.(selfBox := Some(b))))
    case PseudoSlot(i) =>
      WithLayoutData(n, Some(ld.(pseudoBoxes := ld.pseudoBoxes[i := ld.pseudoBoxes[i].(boxSlot := Some(b))])))
  }

  /** `unset_all_boxes`: the own slot emptied and every pseudo slot dropped. */
  function UnsetAllBoxes(n: LayoutNode): (r: LayoutNode)
    ensures r.value.layoutData == Some(LayoutData(None, []))
    ensures r.value.(layoutData := n.value.layoutData) == n.value
  {
    var (n1, ld) := LayoutDataMut(n);
    WithLayoutData(n1, Some(ld.(selfBox := None, pseudoBoxes := [])))
  }

  /** `unset_all_pseudo_boxes`: every pseudo slot dropped, the own slot kept. */
  function UnsetAllPseudoBoxes(n: LayoutNode): (r: LayoutNode)
    ensures r.value.layoutData.Some? && r.value.layoutData.value.pseudoBoxes == []
    ensures r.value.layoutData.value.selfBox == LayoutDataMut(n).1.selfBox
    ensures r.value.(layoutData := n.value.layoutData) == n.value
  {
    var (n1, ld) := LayoutDataMut(n);
    WithLayoutData(n1, Some(ld.(pseudoBoxes := [])))
  }

  /** The test `pseudo_layout_data.pseudo == pseudo` of the slot lookup. */
  function PseudoIs(pseudo: PseudoElement): PseudoLayoutData -> bool
  {
    (d: PseudoLayoutData) => d.pseudo == pseudo
  }

  /** servo's `InnerDOMLayoutData::for_pseudo`: the own slot for no
      pseudo-element, else the first slot recorded for that pseudo-element,
      and nothing when no slot was recorded for it. */
  function ForPseudo(ld: LayoutData, pseudo: Option<PseudoElement>): (r: Option<Option<LayoutBox>>)
    ensures pseudo.None? ==> r == Some(ld.selfBox)
    ensures pseudo.Some? ==> (r.None? <==> forall j :: 0 <= j < |ld.pseudoBoxes| ==> ld.pseudoBoxes[j].pseudo != pseudo.value)
    ensures pseudo.Some? && r.Some? ==>
      exists i :: && 0 <= i < |ld.pseudoBoxes|
                  && ld.pseudoBoxes[i] == PseudoLayoutData(pseudo.value, r.value)
                  && forall j :: 0 <= j < i ==> ld.pseudoBoxes[j].pseudo != pseudo.value
  {
    match pseudo
    case None => Some(ld.selfBox)
    case Some(p) =>
      match FirstIndex(ld.pseudoBoxes, PseudoIs(p))
      case None => None
      case Some(i) => Some(ld.pseudoBoxes[i].boxSlot)
  }

  /** `fragments_for_pseudo`: the fragments of the box in the matching slot;
      empty when there is no layout data, no matching slot, or an empty slot. */
  function FragmentsForPseudo(n: LayoutNode, pseudo: Option<PseudoElement>): (r: seq<Fragment>)
    ensures n.value.layoutData.None? ==> r == []
    ensures n.value.layoutData.Some? && pseudo.Some?
            && (forall j :: 0 <= j < |n.value.layoutData.value.pseudoBoxes| ==> n.value.layoutData.value.pseudoBoxes[j].pseudo != pseudo.value)
            ==> r == []
    ensures forall b :: SlotHolds(n, pseudo, b) ==> r == b.fragments
    ensures (forall b :: !SlotHolds(n, pseudo, b)) ==> r == []
  {
    match n.value.layoutData
    case None => []
    case Some(ld) =>
      match ForPseudo(ld, pseudo)
      case None => []
      case Some(slot) =>
        match slot
        case None => []
        case Some(b) =>
          assert SlotHolds(n, pseudo, b);
          b.fragments
  }

  /** `b` sits in the slot that answers for `pseudo`. */
  ghost predicate SlotHolds(n: LayoutNode, pseudo: Option<PseudoElement>, b: LayoutBox)
  {
    && n.value.layoutData.Some?
    && ForPseudo(n.value.layoutData.value, pseudo) == Some(Some(b))
  }

  /** `take_restyle_damage`: the stored damage, left reset to none; a node
      without style data reports full reconstruction and is not changed. */
  function TakeRestyleDamage(n: LayoutNode): (r: (LayoutNode, set<DamageBit>))
    ensures n.value.styleData.Some? ==> r.1 == n.value.styleData.value.damage
    ensures n.value.styleData.Some? ==> r.0.value.styleData == Some(n.value.styleData.value.(damage := NoDamage))
    ensures n.value.styleData.None? ==> r == (n, Reconstruct)
    ensures r.0.value.(styleData := n.value.styleData) == n.value
  {
    match n.value.styleData
    case None => (n, Reconstruct)
    case Some(sd) => (LayoutNode(n.value.(styleData := Some(sd.(damage := NoDamage)))), sd.damage)
  }

  // ---------------------------------------------------------------------
  // Properties relating several operations
  // ---------------------------------------------------------------------

  /** Lazy initialisation happens once: a second `layout_data_mut` changes
      nothing. */
  lemma LayoutDataMutIdempotent(n: LayoutNode)
    ensures LayoutDataMut(LayoutDataMut(n).0) == LayoutDataMut(n)
  {
  }

  /** Handing out a slot for `pseudo` changes what no other lookup sees:
      the own slot and other pseudo-elements keep their fragments, and
      `pseudo` itself keeps the fragments of its earlier slot if it had one
      (the first slot wins) and has none otherwise. */
  lemma {:induction false} PseudoBoxSlotPreservesLookups(n: LayoutNode, pseudo: PseudoElement, q: Option<PseudoElement>)
    ensures q != Some(pseudo) ==> FragmentsForPseudo(PseudoElementBoxSlot(n, pseudo).0, q) == FragmentsForPseudo(n, q)
    ensures q == Some(pseudo) && n.value.layoutData.Some?
            && FirstIndex(n.value.layoutData.value.pseudoBoxes, PseudoIs(pseudo)).Some?
            ==> FragmentsForPseudo(PseudoElementBoxSlot(n, pseudo).0, q) == FragmentsForPseudo(n, q)
    ensures q == Some(pseudo) ==> (FragmentsForPseudo(PseudoElementBoxSlot(n, pseudo).0, q) == [] <==> FragmentsForPseudo(n, q) == [])
  {
    var before := LayoutDataMut(n).1;
    var after := PseudoElementBoxSlot(n, pseudo).0.value.layoutData.value;
    if q.Some? {
      FirstIndexAfterAppend(before.pseudoBoxes, PseudoLayoutData(pseudo, None), PseudoIs(q.value));
    }
  }

  /** The own slot handed out is the one `fragments_for_pseudo(None)` reads:
      a box stored through it is what the element's own lookup returns, while
      every pseudo lookup keeps its answer.  Handing it out changes no lookup. */
  lemma ElementBoxSlotAnswersOwnLookup(n: LayoutNode, q: Option<PseudoElement>, b: LayoutBox)
    ensures var r := ElementBoxSlot(n);
            SlotContents(r.0, r.1).value.Some? ==> FragmentsForPseudo(r.0, None) == SlotContents(r.0, r.1).value.value.fragments
    ensures var r := ElementBoxSlot(n);
            && FragmentsForPseudo(FillSlot(r.0, r.1, b), None) == b.fragments
            && (q.Some? ==> FragmentsForPseudo(FillSlot(r.0, r.1, b), q) == FragmentsForPseudo(n, q))
    ensures FragmentsForPseudo(ElementBoxSlot(n).0, q) == FragmentsForPseudo(n, q)
  {
  }

  /** A box stored through a freshly handed-out pseudo slot answers that
      pseudo's lookup when no earlier slot was recorded for it; otherwise the
      earlier slot still answers (first match wins).  The own box is kept. */
  lemma {:induction false} PseudoElementBoxSlotAnswersFirstLookup(n: LayoutNode, pseudo: PseudoElement, b: LayoutBox)
    ensures var r := PseudoElementBoxSlot(n, pseudo);
            var m := FillSlot(r.0, r.1, b);
            var before := LayoutDataMut(n).1.pseudoBoxes;
            && FragmentsForPseudo(m, None) == FragmentsForPseudo(n, None)
            && ((forall j :: 0 <= j < |before| ==> before[j].pseudo != pseudo) ==> FragmentsForPseudo(m, Some(pseudo)) == b.fragments)
            && ((exists j :: 0 <= j < |before| && before[j].pseudo == pseudo) ==> FragmentsForPseudo(m, Some(pseudo)) == FragmentsForPseudo(n, Some(pseudo)))
  {
    var r := PseudoElementBoxSlot(n, pseudo);
    var m := FillSlot(r.0, r.1, b);
    var before := LayoutDataMut(n).1.pseudoBoxes;
    var after := r.0.value.layoutData.value.pseudoBoxes;
    var filled := m.value.layoutData.value.pseudoBoxes;
    assert |after| == |before| + 1;
    assert filled == before + [PseudoLayoutData(pseudo, Some(b))] by {
      assert filled[|before|] == PseudoLayoutData(pseudo, Some(b)) by {
        assert SlotContents(m, PseudoSlot(|before|)) == Some(Some(b));
      }
      forall j | 0 <= j < |before|
        ensures filled[j] == before[j]
      {
        assert SlotContents(m, PseudoSlot(j)) == SlotContents(r.0, PseudoSlot(j));
        assert after[j] == before[j];
      }
    }
    FirstIndexAfterAppend(before, PseudoLayoutData(pseudo, Some(b)), PseudoIs(pseudo));
  }

  /** After `unset_all_boxes` no lookup finds any fragment. */
  lemma UnsetAllBoxesClearsFragments(n: LayoutNode, q: Option<PseudoElement>)
    ensures FragmentsForPseudo(UnsetAllBoxes(n), q) == []
  {
  }

  /** `unset_all_pseudo_boxes` keeps the element's own fragments and clears
      those of every pseudo-element. */
  lemma UnsetAllPseudoBoxesKeepsOwnFragments(n: LayoutNode, p: PseudoElement)
    ensures FragmentsForPseudo(UnsetAllPseudoBoxes(n), None) == FragmentsForPseudo(n, None)
    ensures FragmentsForPseudo(UnsetAllPseudoBoxes(n), Some(p)) == []
  {
  }

  /** Both clearing operations are idempotent, and clearing the pseudo boxes
      after clearing everything changes nothing. */
  lemma ClearingIsIdempotent(n: LayoutNode)
    ensures UnsetAllBoxes(UnsetAllBoxes(n)) == UnsetAllBoxes(n)
    ensures UnsetAllPseudoBoxes(UnsetAllPseudoBoxes(n)) == UnsetAllPseudoBoxes(n)
    ensures UnsetAllPseudoBoxes(UnsetAllBoxes(n)) == UnsetAllBoxes(n)
  {
  }

  /** Damage is taken once: a second take reports no damage when the node
      has style data, and full reconstruction again when it has none. */
  lemma TakeRestyleDamageTwice(n: LayoutNode)
    ensures n.value.styleData.Some? ==> TakeRestyleDamage(TakeRestyleDamage(n).0).1 == NoDamage
    ensures n.value.styleData.None? ==> TakeRestyleDamage(TakeRestyleDamage(n).0).1 == Reconstruct
    ensures TakeRestyleDamage(TakeRestyleDamage(n).0).0 == TakeRestyleDamage(n).0
  {
  }

  /** Taking damage leaves layout data alone, so fragments are unaffected. */
  lemma TakeRestyleDamageKeepsFragments(n: LayoutNode, q: Option<PseudoElement>)
    ensures FragmentsForPseudo(TakeRestyleDamage(n).0, q) == FragmentsForPseudo(n, q)
  {
  }
}

=== FILE: options.dfy ===
/** The optional value used throughout the model, standing for Rust's `Option`. */
module Options {

  datatype Option<+T> = None | Some(value: T)
}

=== FILE: safe_element.dfy ===
/**
  `SafeBlitzLayoutElement` (layout/safe_element.rs): a layout element plus
  the pseudo-element it stands for, if any.  Navigation into the tree is
  blitz_dom's; it is supplied as a function from a node to the node found.
 */
module ThreadSafeElement {
  import opened Options
  import opened Dom
  import opened Classify
  import opened Handles
  import LayoutNodeOps
  import ThreadSafeNode
  import opened Seqs

  /** `parent_element`: the wrapped element's parent element, as a handle
      with no pseudo-element. */
  function ParentElement(e: SafeElement, parentElementOf: Node -> Option<Node>): (r: Option<SafeElement>)
    ensures r.None? <==> parentElementOf(e.element.value).None?
    ensures r.Some? ==> r.value.pseudo.None? && r.value.element.value == parentElementOf(e.element.value).value
  {
    match parentElementOf(e.element.value)
    case None => None
    case Some(p) => Some(SafeElement(LayoutElement(p), None))
  }

  /** `containing_shadow_host`: the host of the element's shadow tree, as a
      handle with no pseudo-element. */
  function ContainingShadowHost(e: SafeElement, shadowHostOf: Node -> Option<Node>): (r: Option<SafeElement>)
    ensures r.None? <==> shadowHostOf(e.element.value).None?
    ensures r.Some? ==> r.value.pseudo.None? && r.value.element.value == shadowHostOf(e.element.value).value
  {
    match shadowHostOf(e.element.value)
    case None => None
    case Some(h) => Some(SafeElement(LayoutElement(h), None))
  }

  /** Navigation upward does not depend on the pseudo-element of the start. */
  lemma UpwardNavigationIgnoresPseudo(e: SafeElement, p: Option<PseudoElement>,
                                      parentElementOf: Node -> Option<Node>, shadowHostOf: Node -> Option<Node>)
    ensures ParentElement(e.(pseudo := p), parentElementOf) == ParentElement(e, parentElementOf)
    ensures ContainingShadowHost(e.(pseudo := p), shadowHostOf) == ContainingShadowHost(e, shadowHostOf)
  {
  }

  /** `prev_sibling_element`: not supported, always `None`. */
  function PrevSiblingElement(e: SafeElement): (r: Option<SafeElement>)
    ensures r.None?
  {
    None
  }

  /** `next_sibling_element`: not supported, always `None`. */
  function NextSiblingElement(e: SafeElement): (r: Option<SafeElement>)
    ensures r.None?
  {
    None
  }

  /** `first_element_child`: not supported, always `None`. */
  function FirstElementChild(e: SafeElement): (r: Option<SafeElement>)
    ensures r.None?
  {
    None
  }

  /** `with_pseudo`: pseudo-elements are not supported, always `None`. */
  function WithPseudo(e: SafeElement, pseudo: PseudoElement): (r: Option<SafeElement>)
    ensures r.None?
  {
    None
  }

  /** `as_node`: a node handle over the same blitz node, with no
      pseudo-element even when the element has one. */
  function AsNode(e: SafeElement): (r: SafeNode)
    ensures r.pseudo.None?
    ensures r.node.value == e.element.value
  {
    SafeNode(LayoutNode(e.element.value), None)
  }

  /** `ThreadSafeLayoutElement::type_id`: the type of `as_node`, so always
      present, even for an element that carries a pseudo-element. */
  function TypeId(e: SafeElement): (r: Option<LayoutNodeType>)
    requires !e.element.value.data.Comment?
    ensures r.Some?
    ensures r.value == LayoutNodeOps.TypeId(LayoutNode(e.element.value))
  {
    ThreadSafeNode.TypeId(AsNode(e))
  }

  /** `unsafe_get`: exactly the wrapped element. */
  function UnsafeGet(e: SafeElement): (r: LayoutElement)
    ensures SafeElement(r, e.pseudo) == e
  {
    e.element
  }

  /** `pseudo_element`: exactly the stored pseudo-element. */
  function PseudoElementOf(e: SafeElement): (r: Option<PseudoElement>)
    ensures SafeElement(e.element, r) == e
  {
    e.pseudo
  }

  /** The test `attr.name.local == *name && attr.name.ns == *namespace`. */
  function NameIs(ns: Namespace, local: string): Attribute -> bool
  {
    (a: Attribute) => a.name.local == local && a.name.ns == ns
  }

  /** `get_attr`: the value of the first attribute with this namespace and
      local name; `None` for a node without attributes or without a match. */
  function GetAttr(e: SafeElement, ns: Namespace, local: string): (r: Option<string>)
    ensures r.None? <==> Attrs(e.element.value).None?
                         || forall a :: a in Attrs(e.element.value).value ==> a.name != QualName(ns, local)
    ensures r.Some? ==> exists i :: && 0 <= i < |Attrs(e.element.value).value|
                                    && Attrs(e.element.value).value[i] == Attribute(QualName(ns, local), r.value)
                                    && forall j :: 0 <= j < i ==> Attrs(e.element.value).value[j].name != QualName(ns, local)
  {
    match Attrs(e.element.value)
    case None => None
    case Some(attrs) =>
      match FirstIndex(attrs, NameIs(ns, local))
      case None => None
      case Some(i) => Some(attrs[i].value)
  }

  /** An attribute of the same local name in another namespace is invisible
      to `get_attr`, while the local-name lookup of blitz_dom sees it. */
  lemma GetAttrMatchesNamespace(e: SafeElement, el: ElementData, ns: Namespace, other: Namespace, local: string, v: string)
    requires ns != other
    requires e.element.value.data == Element(el.(attrs := [Attribute(QualName(other, local), v)]))
    ensures GetAttr(e, ns, local).None?
    ensures GetAttr(e, other, local) == Some(v)
    ensures AttrByLocal(e.element.value, local) == Some(v)
  {
  }

  /** `is_shadow_host`: the element has a shadow root. */
  predicate IsShadowHost(e: SafeElement): (b: bool)
    ensures b <==> e.element.value.shadowRoot.Some?
  {
    e.element.value.shadowRoot.Some?
  }

  /** `ThreadSafeLayoutElement::is_root`: the wrapped node is the document. */
  predicate IsRoot(e: SafeElement): (b: bool)
    ensures b <==> e.element.value.data.Document?
    ensures b ==> ElementDataOf(e.element.value).None?
  {
    e.element.value.data.Document?
  }

  /** An element handle obtained from a node is never the root: `as_element`
      only succeeds on element nodes.  Neither test looks at the pseudo. */
  lemma RootAndHostAreNodeFacts(s: SafeNode, e: SafeElement, p: Option<PseudoElement>)
    ensures ThreadSafeNode.AsElement(s).Some? ==> !IsRoot(ThreadSafeNode.AsElement(s).value)
    ensures IsRoot(e.(pseudo := p)) <==> e.element.value.data.Document?
    ensures IsShadowHost(e.(pseudo := p)) <==> e.element.value.shadowRoot.Some?
  {
  }

  // ---------------------------------------------------------------------
  // The pseudo field across the two handles
  // ---------------------------------------------------------------------

  /** `as_element` then `as_node` returns the node with its pseudo-element
      dropped; `as_node` then `as_element` returns the element with its
      pseudo-element dropped, whenever the node is an element. */
  lemma AsNodeAsElementRoundTrip(s: SafeNode, e: SafeElement)
    ensures ThreadSafeNode.AsElement(s).Some? ==> AsNode(ThreadSafeNode.AsElement(s).value) == s.(pseudo := None)
    ensures IsElementNode(e.element.value) ==> ThreadSafeNode.AsElement(AsNode(e)) == Some(e.(pseudo := None))
  {
  }

  /** The element and node views of one handle disagree about pseudo
      elements: a node with a pseudo-element has no type, but the element
      type of any element handle is present. */
  lemma TypeIdAcrossHandles(e: SafeElement, p: PseudoElement)
    requires !e.element.value.data.Comment?
    ensures TypeId(e.(pseudo := Some(p))) == TypeId(e)
    ensures ThreadSafeNode.TypeId(SafeNode(LayoutNode(e.element.value), Some(p))).None?
  {
  }

  /** Every element handle the adapters construct carries no pseudo-element:
      those from a node, from upward navigation, and from the stubs. */
  lemma ConstructedElementsHaveNoPseudo(s: SafeNode, e: SafeElement, p: PseudoElement,
                                        parentElementOf: Node -> Option<Node>, shadowHostOf: Node -> Option<Node>)
    ensures forall r :: r in ElementsFrom(s, e, p, parentElementOf, shadowHostOf) ==> r.pseudo.None?
  {
  }

  /** The element handles obtainable in one step from `s` or `e`. */
  function ElementsFrom(s: SafeNode, e: SafeElement, p: PseudoElement,
                        parentElementOf: Node -> Option<Node>, shadowHostOf: Node -> Option<Node>): set<SafeElement>
  {
    var candidates := [ThreadSafeNode.AsElement(s), ThreadSafeNode.AsHtmlElement(s),
                       ParentElement(e, parentElementOf), ContainingShadowHost(e, shadowHostOf),
                       PrevSiblingElement(e), NextSiblingElement(e), FirstElementChild(e), WithPseudo(e, p)];
    set i | 0 <= i < |candidates| && candidates[i].Some? :: candidates[i].value
  }
}

=== FILE: safe_node.dfy ===
/**
  `SafeBlitzLayoutNode` (layout/safe_node.rs): a layout node plus the
  pseudo-element it stands for, if any.
 */
module ThreadSafeNode {
  import opened Options
  import opened Dom
  import opened Classify
  import opened Handles
  import LayoutNodeOps
  import ChildIter

  /** stylo's `u32`. */
  newtype U32 = x: int | 0 <= x < 0x1_0000_0000

  /** `NodeInfo::is_element`: the wrapped node's answer. */
  predicate HandleIsElement(s: SafeNode): (b: bool)
    ensures b <==> s.node.value.data.Element?
  {
    IsElementNode(s.node.value)
  }

  /** `NodeInfo::is_text_node`: the wrapped node's answer. */
  predicate HandleIsTextNode(s: SafeNode): (b: bool)
    ensures b <==> s.node.value.data.Text?
  {
    IsTextNode(s.node.value)
  }

  /** Neither node-kind test looks at the pseudo-element. */
  lemma NodeKindIgnoresPseudo(s: SafeNode, p: Option<PseudoElement>)
    ensures HandleIsElement(s.(pseudo := p)) == HandleIsElement(s) == s.node.value.data.Element?
    ensures HandleIsTextNode(s.(pseudo := p)) == HandleIsTextNode(s) == s.node.value.data.Text?
  {
  }

  /** `ThreadSafeLayoutNode::type_id`: no type for a pseudo-element, else the
      wrapped node's type. */
  function TypeId(s: SafeNode): (r: Option<LayoutNodeType>)
    requires s.pseudo.None? ==> !s.node.value.data.Comment?
    ensures r.None? <==> s.pseudo.Some?
    ensures r.Some? ==> r.value == LayoutNodeOps.TypeId(s.node)
  {
    if s.pseudo.None? then Some(LayoutNodeOps.TypeId(s.node)) else None
  }

  /** `children`: a children iterator over the node's traversal children,
      which blitz_dom supplies as `traversalChildren`. */
  function Children(s: SafeNode, traversalChildren: Node -> seq<Node>): (r: ChildIter.SafeChildrenIterator)
    ensures r.traverser.remaining == traversalChildren(s.node.value)
  {
    ChildIter.SafeChildrenIterator(ChildIter.Traverser(traversalChildren(s.node.value)))
  }

  /** Every child the iterator yields wraps the matching traversal child and
      carries no pseudo-element, whatever the parent's pseudo-element. */
  method CollectChildren(s: SafeNode, traversalChildren: Node -> seq<Node>) returns (items: seq<SafeNode>)
    ensures |items| == |traversalChildren(s.node.value)|
    ensures forall i :: 0 <= i < |items| ==>
      items[i].pseudo.None? && items[i].node.value == traversalChildren(s.node.value)[i]
  {
    items := ChildIter.CollectSafeChildren(Children(s, traversalChildren));
  }

  /** `as_element`: an element handle over the same node, with no
      pseudo-element, exactly when the node is an element. */
  function AsElement(s: SafeNode): (r: Option<SafeElement>)
    ensures r.Some? <==> IsElementNode(s.node.value)
    ensures r.Some? ==> r.value.pseudo.None? && r.value.element.value == s.node.value
  {
    if IsElementNode(s.node.value) then Some(SafeElement(LayoutElement(s.node.value), None)) else None
  }

  /** `as_html_element`: `as_element`, kept only for HTML elements. */
  function AsHtmlElement(s: SafeNode): (r: Option<SafeElement>)
    ensures r.Some? <==> AsElement(s).Some? && IsHtmlElement(s.node.value)
    ensures r.Some? ==> r == AsElement(s)
  {
    match AsElement(s)
    case None => None
    case Some(el) => if IsHtmlElement(el.element.value) then Some(el) else None
  }

  /** `unsafe_get`: exactly the wrapped node. */
  function UnsafeGet(s: SafeNode): (r: LayoutNode)
    ensures SafeNode(r, s.pseudo) == s
  {
    s.node
  }

  /** `pseudo_element`: exactly the stored pseudo-element. */
  function PseudoElementOf(s: SafeNode): (r: Option<PseudoElement>)
    ensures SafeNode(s.node, r) == s
  {
    s.pseudo
  }

  /** `to_threadsafe` and `unsafe_get` are inverse: a layout node comes back
      unchanged, and a thread-safe node without pseudo-element does too. */
  lemma ToThreadsafeRoundTrip(n: LayoutNode, s: SafeNode)
    ensures UnsafeGet(LayoutNodeOps.ToThreadsafe(n)) == n
    ensures s.pseudo.None? ==> LayoutNodeOps.ToThreadsafe(UnsafeGet(s)) == s
    ensures !n.value.data.Comment? ==> TypeId(LayoutNodeOps.ToThreadsafe(n)) == Some(LayoutNodeOps.TypeId(n))
  {
  }

  /** The shared shape of `get_span`, `get_colspan` and `get_rowspan` as
      evidently intended: no value without the attribute (looked up by local
      name only), else the number the attribute's text denotes, as read by
      `asUint`.  The code as written does not get that far: see
      `SpanAttributeAsWritten`. */
  function SpanAttribute(s: SafeNode, name: string, asUint: string -> U32): (r: Option<U32>)
    ensures r.None? <==> AttrByLocal(s.node.value, name).None?
    ensures r.Some? ==> r.value == asUint(AttrByLocal(s.node.value, name).value)
  {
    match AttrByLocal(s.node.value, name)
    case None => None
    case Some(v) => Some(asUint(v))
  }

  /** The two variants of stylo's `AttrValue` that matter here: the span
      getters build a `String` value, and `as_uint` expects a `UInt` one. */
  datatype AttrValue = StringValue(text: string) | UIntValue(text: string, number: U32)

  /** A call that either returns a value or panics. */
  datatype Outcome<T> = Returned(value: T) | Panicked

  /** stylo's `AttrValue::as_uint`: the number of a `UInt` value; every other
      variant panics. */
  function AsUint(v: AttrValue): (r: Outcome<U32>)
    ensures r.Returned? <==> v.UIntValue?
    ensures r.Returned? ==> r.value == v.number
  {
    match v
    case UIntValue(_, number) => Returned(number)
    case StringValue(_) => Panicked
  }

  /** `get_span`, `get_colspan` and `get_rowspan` as written: the attribute's
      text is wrapped as `AttrValue::String` and handed to `as_uint`, so the
      getter answers `None` without the attribute and panics with it. */
  function SpanAttributeAsWritten(s: SafeNode, name: string): (r: Outcome<Option<U32>>)
    ensures r == Returned(None) <==> AttrByLocal(s.node.value, name).None?
    ensures r.Panicked? <==> AttrByLocal(s.node.value, name).Some?
  {
    match AttrByLocal(s.node.value, name)
    case None => Returned(None)
    case Some(v) =>
      match AsUint(StringValue(v))
      case Panicked => Panicked
      case Returned(number) => Returned(Some(number))
  }

  /** A `colspan="2"` cell: the code as written panics, where the intended
      getter returns the parsed span. */
  lemma SpanGettersPanicOnPresentAttribute(n: Node, el: ElementData, p: Option<PseudoElement>, asUint: string -> U32)
    requires n.data == Element(el.(attrs := [Attribute(QualName(Other(""), "colspan"), "2")]))
    ensures SpanAttributeAsWritten(SafeNode(LayoutNode(n), p), "colspan").Panicked?
    ensures SpanAttribute(SafeNode(LayoutNode(n), p), "colspan", asUint) == Some(asUint("2"))
  {
    assert Attrs(n).value[0].name.local == "colspan";
  }

  /** `get_span` as intended (see `SpanAttribute`). */
  function GetSpan(s: SafeNode, asUint: string -> U32): (r: Option<U32>)
    ensures r.None? <==> forall a :: a in AttrsOrEmpty(s.node.value) ==> a.name.local != "span"
    ensures r.Some? ==> r.value == asUint(AttrByLocal(s.node.value, "span").value)
  {
    SpanAttribute(s, "span", asUint)
  }

  /** `get_colspan` as intended (see `SpanAttribute`). */
  function GetColspan(s: SafeNode, asUint: string -> U32): (r: Option<U32>)
    ensures r.None? <==> forall a :: a in AttrsOrEmpty(s.node.value) ==> a.name.local != "colspan"
    ensures r.Some? ==> r.value == asUint(AttrByLocal(s.node.value, "colspan").value)
  {
    SpanAttribute(s, "colspan", asUint)
  }

  /** `get_rowspan` as intended (see `SpanAttribute`). */
  function GetRowspan(s: SafeNode, asUint: string -> U32): (r: Option<U32>)
    ensures r.None? <==> forall a :: a in AttrsOrEmpty(s.node.value) ==> a.name.local != "rowspan"
    ensures r.Some? ==> r.value == asUint(AttrByLocal(s.node.value, "rowspan").value)
  {
    SpanAttribute(s, "rowspan", asUint)
  }

  /** Span lookups are about the node alone: the pseudo-element does not
      change them, and the first attribute of that local name decides, in
      any namespace. */
  lemma SpanUsesFirstAttribute(s: SafeNode, p: Option<PseudoElement>, asUint: string -> U32,
                               ns: Namespace, v: string, rest: seq<Attribute>, el: ElementData)
    ensures GetSpan(s.(pseudo := p), asUint) == GetSpan(s, asUint)
    ensures var n := s.node.value.(data := Element(el.(attrs := [Attribute(QualName(ns, "colspan"), v)] + rest)));
            GetColspan(SafeNode(LayoutNode(n), p), asUint) == Some(asUint(v))
  {
  }
}

=== FILE: seqs.dfy ===
/** Searching a sequence from the front, as Rust's `Iterator::find` and
    `position` do. */
module Seqs {
  import opened Options

  /** Index of the first element satisfying `p`, or `None` if there is none. */
  function FirstIndex<T>(s: seq<T>, p: T -> bool): (r: Option<nat>)
    ensures r.Some? ==> r.value < |s| && p(s[r.value])
    ensures r.Some? ==> forall j :: 0 <= j < r.value ==> !p(s[j])
    ensures r.None? <==> forall j :: 0 <= j < |s| ==> !p(s[j])
  {
    if |s| == 0 then None
    else if p(s[0]) then Some(0)
    else
      match FirstIndex(s[1..], p)
      case None => None
      case Some(i) => Some(i + 1)
  }

  /** Appending an element never moves the first match, and the appended
      element is found only when nothing before it matches. */
  lemma {:induction false} FirstIndexAfterAppend<T>(s: seq<T>, e: T, p: T -> bool)
    ensures FirstIndex(s, p).Some? ==> FirstIndex(s + [e], p) == FirstIndex(s, p)
    ensures FirstIndex(s, p).None? && p(e) ==> FirstIndex(s + [e], p) == Some(|s|)
    ensures FirstIndex(s, p).None? && !p(e) ==> FirstIndex(s + [e], p).None?
  {
    var xs := s + [e];
    if |s| == 0 {
      assert xs == [e];
    } else if !p(s[0]) {
      assert xs[0] == s[0];
      assert xs[1..] == s[1..] + [e];
      FirstIndexAfterAppend(s[1..], e, p);
    } else {
      assert xs[0] == s[0];
    }
  }
}
